=== FILE: README.md ===
# Waydroid initializer in Dafny

This project models the decision-making core of Waydroid's initializer
(`tools/actions/initializer.py`) in Dafny and proves properties of it:

- **Vendor classification** (`get_vendor_type`, module `Vendor`): the host's
  `ro.vndk.version` becomes `MAINLINE` or `HALIUM_<n-19>`.
- **OTA resolution** (`setup_config`, module `Ota`): choose the images
  directory, fill unset selectors from the channel defaults, build the system
  and vendor descriptor URLs, try the vendor candidates in order, fall back to
  `None` when a preinstalled image set is in use and raise otherwise, and write
  the `waydroid` section of the configuration, resetting each last-synced
  timestamp only when its OTA URL changed.
- **The `init` step sequence** (module `InitSteps`): the collaborators' side
  effects (stop, unmount, fetch images, create the mount point, host
  permissions, container configuration, base properties, mount, start, `done`)
  returned as a trace, with a failing step ending the run.
- **The command channel** (module `Command`): the client's `cmd` record,
  the service's `wait_for_init` loop over incoming records, and the decoding
  of a record into a forced remote `init` (`remote_init_server`).
- **The client's read loop** (module `Stream`): the service output cut into
  drawn chunks at carriage returns and line feeds, and the surrounding notices
  `run_init` draws.

`Common` holds `Option`/`Result` and a first-match search; `Text` holds the
Python string primitives the code relies on (`split`, `join`, `str(n)`,
`int(s)` on digits, `replace`, `startswith`).

Collaborators the initializer calls are parameters: HTTP `retrieve` is a
function from URL to status, host properties are a map (an absent property
reads as the empty string), "directory holding both `system.img` and
`vendor.img`" is a set of paths, the host architecture and binder node names
are values, the `tools.config` defaults are a `Defaults` record, and the steps
that raise are a map from step to exception text. The host facts `init` probes
(configuration file, root filesystem directory, container directory and
status) are a `HostState` record.

Three behaviours of the code deserve a note:

- The decoder checks only the `cmd` prefix. It ignores fields after the
  third, and a record with fewer than three fields after the tag raises
  `IndexError`. That indexing runs in the service loop itself, so the loop
  ends (`Command.End.Crashed`) rather than logging and listening on
  (`Command.MalformedCommandCrashes`).
- An initialized, unforced `init` sends nothing, not even `done`
  (`InitSteps.SecondInitIsNoop`).
- A remote request clears `images_path`, so `setup_config` searches the
  preinstalled directories again (`Command.RemoteRequestDefaults`).

The service loop probes `is_initialized` afresh for every `done` it reads,
and another process (a local `init`, say) may change the host in between.
Each record the loop reads therefore carries the host facts probed while it
is handled (`Command.Arrival`); only where a lemma says so is the probe the
state a served run left behind.

One behaviour is modelled as written although it may surprise: the vendor
loop breaks at the first candidate whose descriptor exists, but the code then
tests the chosen name for truthiness. An empty device codename whose
descriptor exists therefore counts as "not found", and the classification
candidate is never tried (`Ota.VendorFound`).

## Model

| member | source | states |
|---|---|---|
| Common.FirstWhere | tools/actions/initializer.py:68-75 | the index found satisfies the test and no earlier element does; none is found exactly when no element satisfies it |
| Text.Split | tools/actions/initializer.py:189 | splitting never yields an empty list, no piece holds the separator, and joining the pieces back gives the input |
| Text.SplitJoin | tools/actions/initializer.py:189 | splitting the join of separator-free pieces gives the pieces back |
| Text.ParseDecimal | tools/actions/initializer.py:21 | `int()` on a digit string; its contract is the read-back clause of `Text.NatToString` and the level clause of `Vendor.VendorTypeOf` |
| Text.NatToString | tools/actions/initializer.py:23 | `str(n)` is a non-empty digit string without a leading zero that reads back as `n` |
| Text.ReplaceChar | tools/actions/initializer.py:70 | every space becomes an underscore, every other character and the length are kept |
| Vendor.VendorTypeOf | tools/actions/initializer.py:19-23 | the label is MAINLINE exactly when the version is empty or at most 19; otherwise it is `HALIUM_` followed by the version minus 19, and reading the label back gives that level |
| Vendor.GetVendorType | tools/actions/initializer.py:17-25 | a host without the VNDK property is MAINLINE; the label is never empty |
| Vendor.VendorTypeExamples | tools/actions/initializer.py:17-25 | "" and "19" classify as MAINLINE, "30" as HALIUM_11 |
| Ota.SetupConfig | tools/actions/initializer.py:27-97 | `setup_config` as a whole; its contract is carried by `Ota.ResolutionFailsIff`, `Ota.ResolvedSystemOta`, `Ota.VendorSelection`, `Ota.PreinstalledVendorFallback` and `Ota.DatetimeResetIffChanged` |
| Ota.Select | tools/actions/initializer.py:33-54 | the selectors after defaults; stated by `Ota.ChooseImagesPath` and, for remote requests, `Command.RemoteRequestDefaults` |
| Ota.SystemOtaUrl | tools/actions/initializer.py:56-57 | the system descriptor URL; how it is used is stated by `Ota.ResolutionFailsIff` and `Ota.ResolvedSystemOta` |
| Ota.VendorOtaUrl | tools/actions/initializer.py:69-70 | the vendor descriptor URL; stated by `Ota.SpacesBecomeUnderscores` and `Ota.VendorSelection` |
| Ota.VendorFound | tools/actions/initializer.py:72-77 | the truthiness test on the chosen vendor; stated by `Ota.ResolutionFailsIff` and `Ota.VendorSelection` |
| Ota.VendorTried | tools/actions/initializer.py:68-80 | the vendor URL named in the error; `Ota.ResolutionFailsIff` states it is the codename's URL when an empty codename answered, else the classification's |
| Ota.ChooseImagesPath | tools/actions/initializer.py:32-44 | the caller's path wins; else the first complete preinstalled directory in order; else the configured default |
| Ota.VendorHit | tools/actions/initializer.py:68-75 | the hit is a candidate whose descriptor answers 200, the codename is chosen over the classification when both answer, and there is no hit exactly when neither answers |
| Ota.UpdateConfig | tools/actions/initializer.py:85-96 | the saved keys are the old ones, the always-written ones, and each timestamp whose OTA URL differs from the stored one |
| Ota.UpdateConfigRecords | tools/actions/initializer.py:90-96 | arch, images path, vendor type, both OTA URLs and the three binder nodes are recorded |
| Ota.UpdateConfigFrame | tools/actions/initializer.py:85-96 | no other key of the section changes |
| Ota.UpdateConfigDatetimes | tools/actions/initializer.py:85-88 | a timestamp is reset to its default when its URL differs from the stored one (an absent stored URL differs), and kept, present or absent, otherwise |
| Ota.ResolutionFailsIff | tools/actions/initializer.py:58-80 | resolution raises exactly when the images are not preinstalled and either the system descriptor is missing or no vendor is found (`Ota.VendorFound`: an empty codename whose descriptor answers counts as not found); a missing system descriptor is reported first, with its URL and status; otherwise the vendor error names the codename's URL when an empty codename answered, else the classification's |
| Ota.ResolvedSystemOta | tools/actions/initializer.py:56-64 | a resolved system OTA is the descriptor URL when it answers 200, and "None" otherwise, which only happens with preinstalled images |
| Ota.VendorSelection | tools/actions/initializer.py:66-75 | a found non-empty codename wins with its own URL; else a found classification wins with its URL; the recorded vendor type is the unreplaced name; a recorded vendor URL answers 200 |
| Ota.PreinstalledVendorFallback | tools/actions/initializer.py:77-83 | with preinstalled images and no vendor found, resolution succeeds with vendor OTA "None" and the classification as vendor type |
| Ota.DatetimeResetIffChanged | tools/actions/initializer.py:85-88 | after a resolution each timestamp is reset exactly when its OTA URL changed and otherwise left as it was |
| Ota.SpacesBecomeUnderscores | tools/actions/initializer.py:69-70 | for any vendor name, turning one space into an underscore, or all of them, leaves its descriptor URL unchanged |
| InitSteps.IsInitialized | tools/actions/initializer.py:14-15 | `is_initialized`; what makes it true after a run is stated by `InitSteps.AttemptLeavesInitialized` |
| InitSteps.PriorStatus | tools/actions/initializer.py:102-104 | the container status before the run (STOPPED when the lxc directory is missing); stated by `InitSteps.RestartOnlyIfRunning` |
| InitSteps.Wanted | tools/actions/initializer.py:105-121 | each step's guard; tied to the plan both ways by `InitSteps.PlanSteps` |
| InitSteps.Plan | tools/actions/initializer.py:102-121 | the steps of a run that does not raise; stated by `InitSteps.PlanSteps`, `InitSteps.PlanOrdered` and `InitSteps.PlanEndsDone` |
| InitSteps.After | tools/actions/initializer.py:97-121 | the host facts a run leaves (the saved configuration and the created mount point); stated by `InitSteps.AttemptLeavesInitialized` and `InitSteps.SecondInitIsNoop` |
| InitSteps.PlanSteps | tools/actions/initializer.py:102-121 | a complete run performs exactly the steps whose guards hold: stop, mount and start only if the container was not stopped, download only if not preinstalled, mount point creation only if missing, the rest always |
| InitSteps.PlanOrdered | tools/actions/initializer.py:102-121 | the steps come in the order of the calls in `init`, each at most once |
| InitSteps.PlanEndsDone | tools/actions/initializer.py:121 | a complete run ends with the `done` notification |
| InitSteps.Execute | tools/actions/initializer.py:102-121 | the steps attempted are a prefix of the plan; all of it when no step raises; otherwise they end at the first raising step, with its message, and no earlier step raised |
| InitSteps.RunPlan | tools/actions/initializer.py:102-121 | the configuration is saved; the run completes exactly when no step raises, performing the whole plan; a failed run ends at the step that raised |
| InitSteps.Attempt | tools/actions/initializer.py:101-121 | a resolved attempt saves the resolved configuration, keeps the step order, and ends with `done` when it completes |
| InitSteps.AttemptFollowsPlan | tools/actions/initializer.py:102-121 | an attempt performs a prefix of its plan, and the whole plan when it completes |
| InitSteps.InitWith | tools/actions/initializer.py:99-123 | the run is skipped exactly when initialized and not forced; steps keep their order; a run with steps saved the configuration; a complete run ends with `done` |
| InitSteps.Init | tools/actions/initializer.py:99-123 | as `InitWith`, with the configuration resolved by `setup_config` |
| InitSteps.ResolutionFailureHasNoEffects | tools/actions/initializer.py:100-101 | a resolution error raises before any step and before anything is saved |
| InitSteps.AttemptSteps | tools/actions/initializer.py:102-121 | an attempt performs only steps whose guards hold, and all of them when it completes |
| InitSteps.StepsAreWanted | tools/actions/initializer.py:102-121 | every step of every run is allowed by its guard |
| InitSteps.CompleteRunSteps | tools/actions/initializer.py:102-121 | a complete run performs every step its guard allows |
| InitSteps.PrefixRestart | tools/actions/initializer.py:105-120 | in any prefix of the plan a start comes after a stop and a mount, and only if the container was running |
| InitSteps.RestartOnlyIfRunning | tools/actions/initializer.py:104-120 | the container is started only if it was running before, and then only after it was stopped and remounted |
| InitSteps.AttemptLeavesInitialized | tools/actions/initializer.py:111-112 | a completed attempt leaves a configuration file and a root filesystem directory |
| InitSteps.SecondInitIsNoop | tools/actions/initializer.py:99-123 | after a complete run, an unforced `init` performs no step at all, not even `done` |
| Command.Encode | tools/actions/initializer.py:309-310 | the client's record starts with `cmd` and is never the `done` record |
| Command.Params | tools/actions/initializer.py:189 | the decoded parameters hold no separator |
| Command.Classify | tools/actions/initializer.py:130-138 | the loop exits exactly on `done` while initialized, serves exactly the non-`done` records starting with `cmd`, and ignores the rest |
| Command.RemoteRequest | tools/actions/initializer.py:188-195 | the request takes the first three parameters as system channel, vendor channel and system type, and clears images path and rom type |
| Command.EncodeRoundTrip | tools/actions/initializer.py:309-310 | a record encoded from separator-free fields is served and decodes to exactly those fields |
| Command.TaggedRecordServed | tools/actions/initializer.py:136-137 | any record whose first field starts with `cmd` is served |
| Command.TaggedRecordDecoding | tools/actions/initializer.py:188-195 | a record with a `cmd`-prefixed tag decodes exactly when at least three fields follow, and fields after the third are ignored |
| Command.RemoteRequestDefaults | tools/actions/initializer.py:190-195 | a served request takes images path and rom type from the defaults whatever the client sent, and empty fields fall back to the channel defaults |
| Command.ServeRecord | tools/actions/initializer.py:188-200 | a remote run is forced: never skipped as already initialized, steps in order |
| Command.WaitFrom | tools/actions/initializer.py:125-138 | the loop reads at most the records given; it exits only after a `done` whose probe finds the runtime initialized; it crashes only on a command record with fewer than three fields |
| Command.ServedRuns | tools/actions/initializer.py:136-137 | the reference for the runs the loop serves: each non-`done`, `cmd`-prefixed, decodable record becomes a forced `init`; tied to the loop by `Command.WaitRunsServed` |
| Command.WaitRunsServed | tools/actions/initializer.py:136-137 | the runs the loop reports are exactly the forced `init`s of the decodable command records among those it read, in order, each on the host as probed when it arrived |
| Command.WaitStopsAtFirst | tools/actions/initializer.py:128-138 | the loop reads exactly up to the first initialized `done` or malformed command record and ends there (exiting or crashing accordingly); with none it reads every record |
| Command.MalformedCommandCrashes | tools/actions/initializer.py:188-195 | a command record with fewer than three fields ends the loop at once |
| Command.ServedRunsForced | tools/actions/initializer.py:188-200 | every run the loop serves is forced and keeps the step order |
| Command.DoneWhenInitializedExits | tools/actions/initializer.py:131-133 | a `done` that finds the runtime initialized ends the loop after one record |
| Command.LocalInitThenDone | tools/actions/initializer.py:121-133 | a completed `init` in another process followed by its `done` ends the loop, when nothing else changed the host in between |
| Command.DoneBeforeInitIgnored | tools/actions/initializer.py:131-135 | any number of `done` records whose probes find the runtime uninitialized is read and ignored |
| Command.RemoteInitThenDone | tools/actions/initializer.py:128-138 | a client record followed by `done`, with no other writer to the host in between, runs one forced `init` with the client's fields and, when it completes, ends the loop after two records |
| Stream.Drain | tools/actions/initializer.py:319-334 | the read loop from a partial line on; stated by `Stream.DrainConcat`, `Stream.DrainShape` and `Stream.DrainLast` |
| Stream.Chunks | tools/actions/initializer.py:319-334 | the chunks drawn for a whole stream; stated by `Stream.ChunksConcat`, `Stream.ChunksShape` and `Stream.ChunksLast` |
| Stream.Pending | tools/actions/initializer.py:323-334 | the partial line pending at end of stream, defined backwards from the end as an independent reference; tied to the loop by `Stream.DrainLast` |
| Stream.DrainConcat | tools/actions/initializer.py:319-334 | the chunks drawn from a partial line on spell out that line followed by the rest of the stream |
| Stream.ChunksConcat | tools/actions/initializer.py:319-334 | the characters drawn are exactly the characters read, in order |
| Stream.DrainShape | tools/actions/initializer.py:327-334 | from a well-shaped partial line on, every chunk has a carriage return only in front and a line feed only at the end |
| Stream.ChunksShape | tools/actions/initializer.py:327-334 | every chunk drawn has a carriage return only in front and a line feed only at the end |
| Stream.DrainLast | tools/actions/initializer.py:323-334 | the last chunk drawn is the line pending after the whole stream |
| Stream.ChunksLast | tools/actions/initializer.py:323-325 | at end of stream the pending partial line is drawn: what follows the last line feed, or the last carriage return together with what follows it |
| Stream.ReadLoop | tools/actions/initializer.py:319-334 | the loop draws the chunks of the stream: they spell out the input, are well shaped, and end with the pending line |
| Stream.ClientDraws | tools/actions/initializer.py:307-314 | the client first draws the wait notice; when the service is not listening it draws the wait notice and then the not-listening notice, and nothing else |
| Stream.ClientText | tools/actions/initializer.py:307-340 | with a listening service the client shows the wait notice, the service output verbatim, and "Done" exactly when initialized afterwards |

## Left out

- The GTK window, its buttons and entries, and `draw_sync`'s editing of the
  text buffer (including the erasing of the last line before a carriage
  return): user interface, no decision logic.
- The worker process, the init and poll threads, `select.poll` disconnect
  detection, the control queue, and the redirection of output to the channel
  (`background_remote_init_process`): concurrency and OS signalling. A served
  record is modelled as the forced `init` it runs.
- The exception text the worker prints when `init` raises: `init`'s error is
  returned as the `Failed` outcome instead of as output.
- Named-pipe channels (`create_channel`, `read_one`, `notify`,
  `notify_blocking`, `open_channel`) and the re-opening of a stale output
  channel before a second run: foreign I/O. The records the service reads are
  a finite sequence; the client's "is the service listening" is a boolean;
  the output it reads is a string.
- `remote_init_client`'s own `done` notifications (when already initialized
  at start-up, and when its window closes on an initialized runtime): they
  are records the service loop reads, so they appear only as `done` entries
  in the record sequence.
- `helpers.http.retrieve`, property reads, `helpers.arch.host`, the lxc,
  image and driver helpers, and `tools.config` loading and saving: foreign
  calls, modelled as the oracles and trace steps listed above.
- `is_initialized`'s file-system probing: the facts it would find are inputs,
  a `HostState` for `init` and one per record for the service loop.
- The container status after a run: the host facts after a run update only
  the configuration file, the configuration and the mount point directory.
- Byte-wise UTF-8 decoding in the read loop and its "Interrupted" notice on a
  decoding or channel error: the stream is modelled as characters.
- `int()` on a VNDK version that is not a plain decimal number: callers must
  supply a digits-only property (`Vendor.VndkReadable`).
- Logging and console messages (the warning for an incomplete preinstalled
  directory, "Stopping container", "Starting container", "Already
  initialized", "WayDroid waiting for initialization..."): not part of the
  trace.
- Ota.VendorCandidates: states only that there are two candidates; their
  order and contents are stated by `Ota.VendorHit` and `Ota.VendorSelection`.
- Stream.ClientDraws: its contract covers the wait notice and the
  not-listening path; the listening path is stated by `Stream.ClientText`.

=== FILE: command.dfy ===
/** The init command channel: the client's `cmd` record, the service loop
    that waits on the channel (`wait_for_init`), and the server's decoding of
    a record into a forced `init` request (`remote_init_server`). */
module Command {
  import opened Common
  import opened Text
  import opened Vendor
  import opened Ota
  import opened InitSteps

  /** The field separator of a record (form feed). */
  const Sep: char := '\U{000C}'
  /** The tag the client puts first in a command record. */
  const CmdTag := "cmd"
  /** The record announcing that initialization finished. */
  const DoneMsg := "done"

  /** The client's record: the tag, the system channel, the vendor channel and
      the system type, separated by form feeds. */
  function Encode(systemChannel: string, vendorChannel: string, systemType: string): (msg: string)
    ensures StartsWith(msg, CmdTag)
    ensures msg != DoneMsg
  {
    var msg := Join([CmdTag, systemChannel, vendorChannel, systemType], Sep);
    assert msg[..|CmdTag|] == CmdTag;
    assert msg[0] != DoneMsg[0];
    msg
  }

  /** The fields after the first one: `split('\f')[1:]`. */
  function Params(msg: string): (params: seq<string>)
    ensures forall i :: 0 <= i < |params| ==> Sep !in params[i]
  {
    Split(msg, Sep)[1..]
  }

  /** A record the server can decode: at least three fields follow the tag
      (with fewer, its indexing raises). */
  predicate WellFormed(msg: string)
  {
    |Params(msg)| >= 3
  }

  /** What the waiting loop does with one record. */
  datatype Action =
    | Exit    // leave the loop: initialization is done
    | Listen  // read the next record
    | Serve   // run a remote initialization, then read the next record

  /** The dispatch of one record: `done` ends the wait only once the runtime
      is initialized; any record starting with `cmd` is served, with no
      further check; everything else is ignored. */
  function Classify(msg: string, initialized: bool): (a: Action)
    ensures a == Exit <==> msg == DoneMsg && initialized
    ensures a == Serve <==> msg != DoneMsg && StartsWith(msg, CmdTag)
  {
    if msg == DoneMsg then (if initialized then Exit else Listen)
    else if StartsWith(msg, CmdTag) then Serve
    else Listen
  }

  /** The server's request: the three fields after the tag become the system
      channel, the vendor channel and the system type; the images path and
      the rom type are cleared so the defaults apply. */
  function RemoteRequest(msg: string): (req: Request)
    requires WellFormed(msg)
    ensures req.imagesPath == "" && req.romType == ""
    ensures [req.systemChannel, req.vendorChannel, req.systemType] == Params(msg)[..3]
  {
    var params := Params(msg);
    Request("", params[0], params[1], "", params[2])
  }

  /** Round trip: a record the client encodes from separator-free fields is
      served, and the server reads back exactly those fields. */
  lemma EncodeRoundTrip(systemChannel: string, vendorChannel: string, systemType: string, initialized: bool)
    requires Sep !in systemChannel && Sep !in vendorChannel && Sep !in systemType
    ensures var msg := Encode(systemChannel, vendorChannel, systemType);
            && Classify(msg, initialized) == Serve
            && Params(msg) == [systemChannel, vendorChannel, systemType]
            && WellFormed(msg)
            && RemoteRequest(msg) == Request("", systemChannel, vendorChannel, "", systemType)
  {
    var parts := [CmdTag, systemChannel, vendorChannel, systemType];
    TaggedRecordDecoding(parts, initialized);
  }

  /** A record whose first field starts with `cmd` is served, whatever the
      `initialized` flag; the record `done` is never one of them. */
  lemma TaggedRecordServed(parts: seq<string>, initialized: bool)
    requires |parts| >= 1 && StartsWith(parts[0], CmdTag)
    ensures Classify(Join(parts, Sep), initialized) == Serve
  {
    var msg := Join(parts, Sep);
    JoinHead(parts, Sep);
    assert msg[..|CmdTag|] == msg[..|parts[0]|][..|CmdTag|];
    assert msg[0] == 'c';
  }

  /** The server checks neither the tag beyond its prefix nor the number of
      fields: any record of separator-free fields whose first field starts
      with `cmd` (`cmdX` included) is served; it decodes exactly when at least
      three fields follow the first, and fields after the third are ignored. */
  lemma TaggedRecordDecoding(parts: seq<string>, initialized: bool)
    requires |parts| >= 1 && StartsWith(parts[0], CmdTag)
    requires forall i :: 0 <= i < |parts| ==> Sep !in parts[i]
    ensures var msg := Join(parts, Sep);
            && Classify(msg, initialized) == Serve
            && Params(msg) == parts[1..]
            && (WellFormed(msg) <==> |parts| >= 4)
            && (|parts| >= 4 ==> RemoteRequest(msg) == Request("", parts[1], parts[2], "", parts[3]))
  {
    TaggedRecordServed(parts, initialized);
    SplitJoin(parts, Sep);
    var params := Params(Join(parts, Sep));
    assert params == parts[1..];
    if |parts| >= 4 {
      assert params[0] == parts[1] && params[1] == parts[2] && params[2] == parts[3];
    }
  }

  /** A served request takes the images path and the rom type from the
      defaults whatever the client sent, and an empty channel or system type
      falls back to the channel defaults too. */
  lemma RemoteRequestDefaults(msg: string, ch: Channels, host: Host, d: Defaults)
    requires WellFormed(msg)
    ensures var sel := Select(RemoteRequest(msg), ch, host, d);
            && sel.imagesPath == ChooseImagesPath("", d, host.completeImageDirs)
            && sel.romType == ch.romType
            && (Params(msg)[0] == "" ==> sel.systemChannel == ch.systemChannel)
            && (Params(msg)[0] != "" ==> sel.systemChannel == Params(msg)[0])
            && (Params(msg)[1] == "" ==> sel.vendorChannel == ch.vendorChannel)
            && (Params(msg)[1] != "" ==> sel.vendorChannel == Params(msg)[1])
            && (Params(msg)[2] == "" ==> sel.systemType == ch.systemType)
            && (Params(msg)[2] != "" ==> sel.systemType == Params(msg)[2])
  {
    var req := RemoteRequest(msg);
    assert req.systemChannel == Params(msg)[0];
    assert req.vendorChannel == Params(msg)[1];
    assert req.systemType == Params(msg)[2];
  }

  /** What the server works with besides the record: the channel defaults,
      the host, the installation defaults and the steps that raise. */
  datatype Env = Env(ch: Channels, host: Host, d: Defaults, failures: map<Effect, string>)

  /** How the waiting loop ended. */
  datatype End =
    | Exited        // a `done` record arrived while initialized
    | Crashed       // a malformed command record raised in the server
    | OutOfRecords  // the records ran out (the loop would block reading)

  /** One record as the service handles it: the text read from the channel
      and the host facts probed while handling it. Another process (a local
      `init` ending in its own `done`, say) may change the host between two
      records, so each record carries its own probe. */
  datatype Arrival = Arrival(msg: string, host: HostState)

  /** The waiting loop's account: the remote runs it served in order, how it
      ended, and how many records it read. */
  datatype Waited = Waited(runs: seq<InitRun>, end: End, read: nat)

  /** `remote_init_server` after decoding: a forced `init` with the record's
      selectors, on the host as probed then. */
  function ServeRecord(msg: string, s: HostState, env: Env): (run: InitRun)
    requires WellFormed(msg) && VndkReadable(env.host.props)
    ensures run.outcome != AlreadyInitialized
    ensures Ordered(run.trace)
  {
    Init(s, true, RemoteRequest(msg), env.ch, env.host, env.d, env.failures)
  }

  /** The records the loop does not read past: `done` while the probe says
      initialized, and a command record with fewer than three fields. */
  predicate Stops(a: Arrival)
  {
    || (a.msg == DoneMsg && IsInitialized(a.host))
    || (a.msg != DoneMsg && StartsWith(a.msg, CmdTag) && !WellFormed(a.msg))
  }

  /** `wait_for_init` over the records it reads, from the service's start: every `done` is judged by
      the probe taken when it arrives. */
  function WaitFrom(records: seq<Arrival>, env: Env): (w: Waited)
    requires VndkReadable(env.host.props)
    ensures w.read <= |records|
    ensures w.end == OutOfRecords ==> w.read == |records|
    ensures w.end == Exited ==>
              w.read > 0 && records[w.read - 1].msg == DoneMsg && IsInitialized(records[w.read - 1].host)
    ensures w.end == Crashed ==>
              w.read > 0 && StartsWith(records[w.read - 1].msg, CmdTag) && !WellFormed(records[w.read - 1].msg)
    decreases |records|
  {
    if |records| == 0 then Waited([], OutOfRecords, 0)
    else
      var a := records[0];
      match Classify(a.msg, IsInitialized(a.host))
      case Exit => Waited([], Exited, 1)
      case Listen =>
        var rest := WaitFrom(records[1..], env);
        rest.(read := rest.read + 1)
      case Serve =>
        if !WellFormed(a.msg) then Waited([], Crashed, 1)
        else
          var run := ServeRecord(a.msg, a.host, env);
          var rest := WaitFrom(records[1..], env);
          Waited([run] + rest.runs, rest.end, rest.read + 1)
  }

  /** The loop reads up to and including the first record that stops it, and
      ends there: on `done` by exiting, on a malformed command by crashing;
      with no such record it reads everything. */
  lemma {:induction false} WaitStopsAtFirst(records: seq<Arrival>, env: Env)
    requires VndkReadable(env.host.props)
    ensures var w := WaitFrom(records, env);
            match FirstWhere(records, Stops)
            case None => w.end == OutOfRecords && w.read == |records|
            case Some(k) =>
              && w.read == k + 1
              && w.end == (if records[k].msg == DoneMsg then Exited else Crashed)
    decreases |records|
  {
    if |records| > 0 {
      var a := records[0];
      if !Stops(a) {
        WaitStopsAtFirst(records[1..], env);
        var w := WaitFrom(records, env);
        var w' := WaitFrom(records[1..], env);
        assert w.end == w'.end && w.read == w'.read + 1;
        match FirstWhere(records[1..], Stops)
        case None =>
          assert FirstWhere(records, Stops) == None;
        case Some(k) =>
          assert FirstWhere(records, Stops) == Some(k + 1);
          assert records[k + 1] == records[1..][k];
      }
    }
  }

  /** Reference for the runs served: every record that is not `done`, starts
      with `cmd` and decodes is handed to `remote_init_server`, in order, on
      the host as probed when it arrives. */
  function ServedRuns(records: seq<Arrival>, env: Env): seq<InitRun>
    requires VndkReadable(env.host.props)
    decreases |records|
  {
    if |records| == 0 then []
    else
      var a := records[0];
      var rest := ServedRuns(records[1..], env);
      if a.msg != DoneMsg && StartsWith(a.msg, CmdTag) && WellFormed(a.msg)
      then [ServeRecord(a.msg, a.host, env)] + rest
      else rest
  }

  /** The loop serves exactly the decodable command records among those it
      reads, in order, and nothing else. */
  lemma {:induction false} WaitRunsServed(records: seq<Arrival>, env: Env)
    requires VndkReadable(env.host.props)
    ensures var w := WaitFrom(records, env);
            w.runs == ServedRuns(records[..w.read], env)
    decreases |records|
  {
    var w := WaitFrom(records, env);
    if |records| > 0 {
      var a := records[0];
      var read := records[..w.read];
      match Classify(a.msg, IsInitialized(a.host))
      case Exit =>
        assert read == [a];
        assert read[1..] == [];
      case Listen =>
        var w' := WaitFrom(records[1..], env);
        WaitRunsServed(records[1..], env);
        assert read[0] == a;
        assert read[1..] == records[1..][..w'.read];
      case Serve =>
        if !WellFormed(a.msg) {
          assert read == [a];
          assert read[1..] == [];
        } else {
          var w' := WaitFrom(records[1..], env);
          WaitRunsServed(records[1..], env);
          assert read[0] == a;
          assert read[1..] == records[1..][..w'.read];
        }
    } else {
      assert records[..w.read] == [];
    }
  }

  /** A command record the server cannot decode ends the loop at once. */
  lemma MalformedCommandCrashes(m: string, h: HostState, rest: seq<Arrival>, env: Env)
    requires VndkReadable(env.host.props)
    requires StartsWith(m, CmdTag) && m != DoneMsg && !WellFormed(m)
    ensures WaitFrom([Arrival(m, h)] + rest, env) == Waited([], Crashed, 1)
  {
  }

  /** Every run is forced (not skipped as already initialized) and performs
      its steps in canonical order. */
  predicate AllForced(runs: seq<InitRun>)
  {
    forall i :: 0 <= i < |runs| ==> runs[i].outcome != AlreadyInitialized && Ordered(runs[i].trace)
  }

  /** Every run the loop serves is forced: none is skipped as already
      initialized, and each performs its steps in canonical order. */
  lemma {:induction false} ServedRunsForced(records: seq<Arrival>, env: Env)
    requires VndkReadable(env.host.props)
    ensures AllForced(WaitFrom(records, env).runs)
    decreases |records|
  {
    if |records| > 0 {
      var a := records[0];
      var runs := WaitFrom(records, env).runs;
      match Classify(a.msg, IsInitialized(a.host))
      case Exit =>
        assert runs == [];
      case Listen =>
        ServedRunsForced(records[1..], env);
        assert runs == WaitFrom(records[1..], env).runs;
      case Serve =>
        if WellFormed(a.msg) {
          var run := ServeRecord(a.msg, a.host, env);
          var rest := WaitFrom(records[1..], env).runs;
          ServedRunsForced(records[1..], env);
          assert runs == [run] + rest;
          forall i | 0 <= i < |runs| ensures runs[i].outcome != AlreadyInitialized && Ordered(runs[i].trace) {
            if i > 0 {
              assert runs[i] == rest[i - 1];
            }
          }
        } else {
          assert runs == [];
        }
    }
  }

  /** A `done` that finds the runtime initialized ends the wait at once, and
      no other record is read. */
  lemma DoneWhenInitializedExits(h: HostState, rest: seq<Arrival>, env: Env)
    requires VndkReadable(env.host.props) && IsInitialized(h)
    ensures WaitFrom([Arrival(DoneMsg, h)] + rest, env) == Waited([], Exited, 1)
  {
  }

  /** A local `init` in another process that completes and then sends its
      `done` ends the wait, provided nothing else changed the host between. */
  lemma LocalInitThenDone(s: HostState, force: bool, req: Request, ch: Channels, host: Host, d: Defaults,
                          failures: map<Effect, string>, rest: seq<Arrival>, env: Env)
    requires VndkReadable(host.props) && VndkReadable(env.host.props)
    requires Init(s, force, req, ch, host, d, failures).outcome == Done
    ensures var after := After(s, Init(s, force, req, ch, host, d, failures));
            WaitFrom([Arrival(DoneMsg, after)] + rest, env) == Waited([], Exited, 1)
  {
    SecondInitIsNoop(s, force, req, ch, host, d, failures);
    DoneWhenInitializedExits(After(s, Init(s, force, req, ch, host, d, failures)), rest, env);
  }

  /** `done` records that find the runtime uninitialized are ignored however
      many arrive. */
  lemma {:induction false} DoneBeforeInitIgnored(dones: seq<Arrival>, rest: seq<Arrival>, env: Env)
    requires VndkReadable(env.host.props)
    requires forall i :: 0 <= i < |dones| ==> dones[i].msg == DoneMsg && !IsInitialized(dones[i].host)
    ensures var w := WaitFrom(dones + rest, env);
            var w' := WaitFrom(rest, env);
            w == w'.(read := w'.read + |dones|)
    decreases |dones|
  {
    if |dones| > 0 {
      var records := dones + rest;
      assert records[0] == dones[0];
      assert records[1..] == dones[1..] + rest;
      DoneBeforeInitIgnored(dones[1..], rest, env);
    } else {
      assert dones + rest == rest;
    }
  }

  /** The client's request followed by `done`, with no other writer to the
      host in between: when the served run completes, the `done` ends the
      wait; the run is the forced `init` with the client's fields. */
  lemma RemoteInitThenDone(systemChannel: string, vendorChannel: string, systemType: string,
                           s: HostState, env: Env)
    requires VndkReadable(env.host.props)
    requires Sep !in systemChannel && Sep !in vendorChannel && Sep !in systemType
    requires Init(s, true, Request("", systemChannel, vendorChannel, "", systemType),
                  env.ch, env.host, env.d, env.failures).outcome == Done
    ensures var run := Init(s, true, Request("", systemChannel, vendorChannel, "", systemType),
                            env.ch, env.host, env.d, env.failures);
            var w := WaitFrom([Arrival(Encode(systemChannel, vendorChannel, systemType), s),
                                  Arrival(DoneMsg, After(s, run))], env);
            && w.end == Exited
            && w.read == 2
            && w.runs == [run]
  {
    var msg := Encode(systemChannel, vendorChannel, systemType);
    var req := Request("", systemChannel, vendorChannel, "", systemType);
    EncodeRoundTrip(systemChannel, vendorChannel, systemType, IsInitialized(s));
    var run := Init(s, true, req, env.ch, env.host, env.d, env.failures);
    assert ServeRecord(msg, s, env) == run;
    SecondInitIsNoop(s, true, req, env.ch, env.host, env.d, env.failures);
    var records := [Arrival(msg, s), Arrival(DoneMsg, After(s, run))];
    assert records[1..] == [Arrival(DoneMsg, After(s, run))];
    assert WaitFrom(records[1..], env) == Waited([], Exited, 1);
  }
}

=== FILE: common.dfy ===
/** Small failure-carrying datatypes shared by the model, and a first-match search. */
module Common {

  /** A value that may be missing (Python's `None`). */
  datatype Option<+T> = None | Some(value: T)

  /** The outcome of an operation that may raise: `Err` carries the exception text. */
  datatype Result<+T> = Ok(value: T) | Err(msg: string)

  /** Index of the first element of `xs` satisfying `p`: the shape of a Python
      `for x in xs: if p(x): ...; break` loop. */
  function FirstWhere<T>(xs: seq<T>, p: T -> bool): (r: Option<nat>)
    ensures r.Some? ==> r.value < |xs| && p(xs[r.value])
    ensures r.Some? ==> forall j :: 0 <= j < r.value ==> !p(xs[j])
    ensures r.None? <==> forall j :: 0 <= j < |xs| ==> !p(xs[j])
  {
    if |xs| == 0 then None
    else if p(xs[0]) then Some(0)
    else
      match FirstWhere(xs[1..], p)
      case None => None
      case Some(i) => Some(i + 1)
  }
}

=== FILE: init.dfy ===
/** The initialization step sequence (`init`): skipped when the runtime is
    already initialized and not forced; otherwise resolve the configuration,
    then stop, unmount, fetch images, prepare the root filesystem, regenerate
    the container configuration, restart a container that was running, and
    announce `done`. The collaborators' side effects are returned as a trace. */
module InitSteps {
  import opened Common
  import opened Vendor
  import opened Ota

  /** One externally visible step of `init`. */
  datatype Effect =
    | Stop        // stop the container
    | Umount      // unmount the root filesystem
    | GetImages   // download the resolved images
    | MkRootfs    // create the root filesystem mount point
    | HostPerms   // host permission setup
    | LxcConfig   // write the container configuration
    | BaseProps   // write the base properties
    | Mount       // mount the root filesystem
    | Start       // start the container
    | NotifyDone  // send `done` on the init channel

  /** The container status that means "not running". */
  const Stopped := "STOPPED"

  /** The host facts `init` probes. */
  datatype HostState = HostState(
    configFileExists: bool,  // the configuration file exists
    rootfsIsDir: bool,       // the root filesystem mount point exists
    lxcDirExists: bool,      // the container's lxc directory exists
    lxcStatus: string,       // the status the container reports when asked
    config: Config)          // the loaded `waydroid` configuration section

  /** `is_initialized`: a configuration file and a root filesystem directory. */
  predicate IsInitialized(s: HostState)
  {
    s.configFileExists && s.rootfsIsDir
  }

  /** The container status before anything is done: only asked for when the
      container directory exists, otherwise taken as stopped. */
  function PriorStatus(s: HostState): string
  {
    if s.lxcDirExists then s.lxcStatus else Stopped
  }

  /** The position of each step in the one order `init` ever performs them in. */
  function Rank(e: Effect): nat
  {
    match e
    case Stop => 0
    case Umount => 1
    case GetImages => 2
    case MkRootfs => 3
    case HostPerms => 4
    case LxcConfig => 5
    case BaseProps => 6
    case Mount => 7
    case Start => 8
    case NotifyDone => 9
  }

  /** Steps appear in canonical order, each at most once. */
  predicate Ordered(trace: seq<Effect>)
  {
    forall i, j :: 0 <= i < j < |trace| ==> Rank(trace[i]) < Rank(trace[j])
  }

  /** The step at each rank: the inverse of `Rank`. */
  function StepAt(k: nat): (e: Effect)
    requires k < 10
    ensures Rank(e) == k
  {
    [Stop, Umount, GetImages, MkRootfs, HostPerms, LxcConfig, BaseProps, Mount, Start, NotifyDone][k]
  }

  /** Which steps a complete run performs (the conditions guarding each call
      in `init`): stop, remount and restart only a container that was
      running, fetch only images that are not preinstalled, create the mount
      point only when it is missing, every other step always. */
  predicate Wanted(e: Effect, running: bool, preinstalled: bool, rootfsIsDir: bool)
  {
    match e
    case Stop => running
    case GetImages => !preinstalled
    case MkRootfs => !rootfsIsDir
    case Mount => running
    case Start => running
    case _ => true
  }

  /** The wanted steps from rank `k` on, in rank order (`running` in the
      measure keeps a literal `k` from unfolding the whole plan). */
  function PlanFrom(k: nat, running: bool, preinstalled: bool, rootfsIsDir: bool): seq<Effect>
    requires k <= 10
    decreases 10 - k, running
  {
    if k == 10 then []
    else
      (if Wanted(StepAt(k), running, preinstalled, rootfsIsDir) then [StepAt(k)] else [])
      + PlanFrom(k + 1, running, preinstalled, rootfsIsDir)
  }

  /** The steps a complete run performs once the configuration is resolved. */
  function Plan(running: bool, preinstalled: bool, rootfsIsDir: bool): seq<Effect>
  {
    PlanFrom(0, running, preinstalled, rootfsIsDir)
  }

  /** `PlanFrom(k)` holds exactly the wanted steps of rank `k` or more. */
  lemma {:induction false} PlanFromMembers(k: nat, running: bool, preinstalled: bool, rootfsIsDir: bool)
    requires k <= 10
    ensures forall e :: e in PlanFrom(k, running, preinstalled, rootfsIsDir) <==>
                          Rank(e) >= k && Wanted(e, running, preinstalled, rootfsIsDir)
    decreases 10 - k
  {
    if k < 10 {
      PlanFromMembers(k + 1, running, preinstalled, rootfsIsDir);
      forall e | Rank(e) == k ensures e == StepAt(k) {
      }
    }
  }

  /** Every step of `trace` ranks `k` or above. */
  predicate AtLeast(trace: seq<Effect>, k: nat)
  {
    forall i :: 0 <= i < |trace| ==> k <= Rank(trace[i])
  }

  /** `PlanFrom(k)` holds only steps of rank `k` or more. */
  lemma {:induction false} PlanFromAtLeast(k: nat, running: bool, preinstalled: bool, rootfsIsDir: bool)
    requires k <= 10
    ensures AtLeast(PlanFrom(k, running, preinstalled, rootfsIsDir), k)
    decreases 10 - k
  {
    if k < 10 {
      PlanFromAtLeast(k + 1, running, preinstalled, rootfsIsDir);
    }
  }

  /** Putting a step in front of a trace of higher-ranked steps keeps the order. */
  lemma ConsOrdered(e: Effect, rest: seq<Effect>)
    requires Ordered(rest) && AtLeast(rest, Rank(e) + 1)
    ensures Ordered([e] + rest)
  {
    var p := [e] + rest;
    forall i, j | 0 <= i < j < |p| ensures Rank(p[i]) < Rank(p[j]) {
      assert p[j] == rest[j - 1];
      if i > 0 {
        assert p[i] == rest[i - 1];
      }
    }
  }

  /** `PlanFrom(k)` lists its steps in strictly increasing rank. */
  lemma {:induction false} PlanFromOrdered(k: nat, running: bool, preinstalled: bool, rootfsIsDir: bool)
    requires k <= 10
    ensures Ordered(PlanFrom(k, running, preinstalled, rootfsIsDir))
    decreases 10 - k
  {
    if k < 10 {
      var rest := PlanFrom(k + 1, running, preinstalled, rootfsIsDir);
      PlanFromOrdered(k + 1, running, preinstalled, rootfsIsDir);
      PlanFromAtLeast(k + 1, running, preinstalled, rootfsIsDir);
      if Wanted(StepAt(k), running, preinstalled, rootfsIsDir) {
        ConsOrdered(StepAt(k), rest);
      } else {
        assert PlanFrom(k, running, preinstalled, rootfsIsDir) == rest;
      }
    }
  }

  /** `PlanFrom(k)` ends with `done` for every rank up to that of `done`. */
  lemma {:induction false} PlanFromEndsDone(k: nat, running: bool, preinstalled: bool, rootfsIsDir: bool)
    requires k < 10
    ensures var p := PlanFrom(k, running, preinstalled, rootfsIsDir);
            |p| > 0 && p[|p| - 1] == NotifyDone
    decreases 10 - k
  {
    if k < 9 {
      PlanFromEndsDone(k + 1, running, preinstalled, rootfsIsDir);
    } else {
      assert PlanFrom(10, running, preinstalled, rootfsIsDir) == [];
    }
  }

  /** A complete run performs its steps in canonical order, each at most once. */
  lemma PlanOrdered(running: bool, preinstalled: bool, rootfsIsDir: bool)
    ensures Ordered(Plan(running, preinstalled, rootfsIsDir))
  {
    PlanFromOrdered(0, running, preinstalled, rootfsIsDir);
  }

  /** A complete run performs exactly the wanted steps. */
  lemma PlanSteps(running: bool, preinstalled: bool, rootfsIsDir: bool)
    ensures forall e :: e in Plan(running, preinstalled, rootfsIsDir) <==>
                          Wanted(e, running, preinstalled, rootfsIsDir)
  {
    PlanFromMembers(0, running, preinstalled, rootfsIsDir);
  }

  /** A complete run ends with `done`. */
  lemma PlanEndsDone(running: bool, preinstalled: bool, rootfsIsDir: bool)
    ensures var plan := Plan(running, preinstalled, rootfsIsDir);
            |plan| > 0 && plan[|plan| - 1] == NotifyDone
  {
    PlanFromEndsDone(0, running, preinstalled, rootfsIsDir);
  }

  /** Every prefix of an ordered trace is ordered. */
  lemma OrderedPrefix(trace: seq<Effect>, prefix: seq<Effect>)
    requires Ordered(trace) && prefix <= trace
    ensures Ordered(prefix)
  {
    forall i, j | 0 <= i < j < |prefix| ensures Rank(prefix[i]) < Rank(prefix[j]) {
      assert prefix[i] == trace[i] && prefix[j] == trace[j];
    }
  }

  /** How far a plan got: the steps attempted, and the message of the step
      that raised, if one did. */
  datatype Execution = Execution(attempted: seq<Effect>, error: Option<string>)

  /** Run a plan step by step; a step in `failures` raises with its message
      and nothing after it runs (no rollback). */
  function Execute(plan: seq<Effect>, failures: map<Effect, string>): (x: Execution)
    ensures x.attempted <= plan
    ensures x.error.None? <==> forall i :: 0 <= i < |plan| ==> plan[i] !in failures
    ensures x.error.None? ==> x.attempted == plan
    ensures x.error.Some? ==>
              && |x.attempted| > 0
              && x.attempted[|x.attempted| - 1] in failures
              && failures[x.attempted[|x.attempted| - 1]] == x.error.value
              && forall i :: 0 <= i < |x.attempted| - 1 ==> x.attempted[i] !in failures
  {
    if |plan| == 0 then Execution([], None)
    else if plan[0] in failures then Execution([plan[0]], Some(failures[plan[0]]))
    else
      var rest := Execute(plan[1..], failures);
      Execution([plan[0]] + rest.attempted, rest.error)
  }

  /** What one call of `init` amounts to. */
  datatype Outcome = AlreadyInitialized | Done | Failed(msg: string)

  /** The steps attempted, the outcome, and the configuration saved, if any. */
  datatype InitRun = InitRun(trace: seq<Effect>, outcome: Outcome, saved: Option<Config>)

  /** The plan a resolved attempt follows. */
  function PlanFor(s: HostState, res: Resolved, d: Defaults): seq<Effect>
  {
    Plan(PriorStatus(s) != Stopped, Preinstalled(res.imagesPath, d), s.rootfsIsDir)
  }

  /** The part of `init` after a successful resolution: save the resolved
      configuration, then run the plan. The run is complete exactly when no
      step raises, and otherwise stops at the first step that does. */
  function RunPlan(plan: seq<Effect>, config: Config, failures: map<Effect, string>): (run: InitRun)
    requires Ordered(plan) && |plan| > 0 && plan[|plan| - 1] == NotifyDone
    ensures run.saved == Some(config)
    ensures run.trace <= plan
    ensures run.outcome.Done? || run.outcome.Failed?
    ensures run.outcome == Done <==> forall i :: 0 <= i < |plan| ==> plan[i] !in failures
    ensures run.outcome == Done ==> run.trace == plan
    ensures Ordered(run.trace)
    ensures run.outcome == Done ==> |run.trace| > 0 && run.trace[|run.trace| - 1] == NotifyDone
    ensures run.outcome.Failed? ==>
              && |run.trace| > 0
              && run.trace[|run.trace| - 1] in failures
              && failures[run.trace[|run.trace| - 1]] == run.outcome.msg
  {
    var x := Execute(plan, failures);
    OrderedPrefix(plan, x.attempted);
    InitRun(x.attempted, if x.error.None? then Done else Failed(x.error.value), Some(config))
  }

  /** A resolved attempt: the plan for the container's prior status, the
      image source and the mount point, run after saving the configuration. */
  function Attempt(s: HostState, res: Resolved, d: Defaults, failures: map<Effect, string>): (run: InitRun)
    ensures run.saved == Some(res.config)
    ensures Ordered(run.trace)
    ensures run.outcome.Done? || run.outcome.Failed?
    ensures run.outcome == Done ==> |run.trace| > 0 && run.trace[|run.trace| - 1] == NotifyDone
  {
    PlanOrdered(PriorStatus(s) != Stopped, Preinstalled(res.imagesPath, d), s.rootfsIsDir);
    PlanEndsDone(PriorStatus(s) != Stopped, Preinstalled(res.imagesPath, d), s.rootfsIsDir);
    RunPlan(PlanFor(s, res, d), res.config, failures)
  }

  /** A resolved attempt follows its plan: it performs a prefix of it, and
      all of it when it completes. */
  lemma AttemptFollowsPlan(s: HostState, res: Resolved, d: Defaults, failures: map<Effect, string>)
    ensures Attempt(s, res, d, failures).trace <= PlanFor(s, res, d)
    ensures Attempt(s, res, d, failures).outcome == Done ==> Attempt(s, res, d, failures).trace == PlanFor(s, res, d)
  {
  }

  /** `init` once the outcome of the resolution is known: skipped when
      initialized and not forced, raising the resolution's error with no
      step taken, or the resolved attempt. */
  function InitWith(s: HostState, force: bool, resolution: Result<Resolved>, d: Defaults,
                    failures: map<Effect, string>): (run: InitRun)
    ensures IsInitialized(s) && !force ==> run == InitRun([], AlreadyInitialized, None)
    ensures run.outcome == AlreadyInitialized <==> IsInitialized(s) && !force
    ensures Ordered(run.trace)
    ensures run.trace != [] ==> run.saved.Some?
    ensures run.outcome == Done ==> |run.trace| > 0 && run.trace[|run.trace| - 1] == NotifyDone
  {
    if IsInitialized(s) && !force then InitRun([], AlreadyInitialized, None)
    else
      match resolution
      case Err(msg) => InitRun([], Failed(msg), None)
      case Ok(res) => Attempt(s, res, d, failures)
  }

  /** `init`: the configuration is resolved only when the run is not skipped. */
  function Init(s: HostState, force: bool, req: Request, ch: Channels, host: Host, d: Defaults,
                failures: map<Effect, string>): (run: InitRun)
    requires VndkReadable(host.props)
    ensures IsInitialized(s) && !force ==> run == InitRun([], AlreadyInitialized, None)
    ensures run.outcome == AlreadyInitialized <==> IsInitialized(s) && !force
    ensures Ordered(run.trace)
    ensures run.trace != [] ==> run.saved.Some?
    ensures run.outcome == Done ==> |run.trace| > 0 && run.trace[|run.trace| - 1] == NotifyDone
  {
    InitWith(s, force, SetupConfig(s.config, req, ch, host, d), d, failures)
  }

  /** A resolution failure raises before any step and before anything is saved. */
  lemma ResolutionFailureHasNoEffects(s: HostState, force: bool, req: Request, ch: Channels, host: Host,
                                      d: Defaults, failures: map<Effect, string>)
    requires VndkReadable(host.props)
    requires !IsInitialized(s) || force
    requires SetupConfig(s.config, req, ch, host, d).Err?
    ensures Init(s, force, req, ch, host, d, failures)
            == InitRun([], Failed(SetupConfig(s.config, req, ch, host, d).msg), None)
  {
  }

  /** A resolved attempt performs only steps its guards allow, and all of
      them when it completes. */
  lemma AttemptSteps(s: HostState, res: Resolved, d: Defaults, failures: map<Effect, string>)
    ensures var run := Attempt(s, res, d, failures);
            var running, preinstalled := PriorStatus(s) != Stopped, Preinstalled(res.imagesPath, d);
            && (forall e :: e in run.trace ==> Wanted(e, running, preinstalled, s.rootfsIsDir))
            && (run.outcome == Done ==> forall e :: Wanted(e, running, preinstalled, s.rootfsIsDir) ==> e in run.trace)
  {
    var run := Attempt(s, res, d, failures);
    var plan := PlanFor(s, res, d);
    AttemptFollowsPlan(s, res, d, failures);
    PlanSteps(PriorStatus(s) != Stopped, Preinstalled(res.imagesPath, d), s.rootfsIsDir);
    forall e | e in run.trace ensures e in plan {
      var i :| 0 <= i < |run.trace| && run.trace[i] == e;
      assert plan[i] == e;
    }
  }

  /** Every step any run performs is one its guards allow: no stop, mount or
      start unless the container was running, no download for preinstalled
      images, no mount point creation when it exists. */
  lemma StepsAreWanted(s: HostState, force: bool, req: Request, ch: Channels, host: Host,
                       d: Defaults, failures: map<Effect, string>)
    requires VndkReadable(host.props)
    ensures var run := Init(s, force, req, ch, host, d, failures);
            var imagesPath := Select(req, ch, host, d).imagesPath;
            forall e :: e in run.trace ==>
                          Wanted(e, PriorStatus(s) != Stopped, Preinstalled(imagesPath, d), s.rootfsIsDir)
  {
    if !(IsInitialized(s) && !force) && SetupConfig(s.config, req, ch, host, d).Ok? {
      var res := SetupConfig(s.config, req, ch, host, d).value;
      ResolvedSystemOta(s.config, req, ch, host, d);
      AttemptSteps(s, res, d, failures);
    }
  }

  /** A run that completes performs every step its guards allow; with the
      previous lemma, each step happens exactly when its guard holds. */
  lemma CompleteRunSteps(s: HostState, force: bool, req: Request, ch: Channels, host: Host,
                         d: Defaults, failures: map<Effect, string>)
    requires VndkReadable(host.props)
    requires Init(s, force, req, ch, host, d, failures).outcome == Done
    ensures var run := Init(s, force, req, ch, host, d, failures);
            var imagesPath := Select(req, ch, host, d).imagesPath;
            forall e :: Wanted(e, PriorStatus(s) != Stopped, Preinstalled(imagesPath, d), s.rootfsIsDir) ==>
                          e in run.trace
  {
    var res := SetupConfig(s.config, req, ch, host, d).value;
    ResolvedSystemOta(s.config, req, ch, host, d);
    AttemptSteps(s, res, d, failures);
  }

  /** In a trace that is a prefix of an ordered plan, a step of the plan
      ranked below a step already taken has been taken too. */
  lemma EarlierStepTaken(plan: seq<Effect>, trace: seq<Effect>, a: Effect, b: Effect)
    requires Ordered(plan) && trace <= plan
    requires a in plan && b in trace && Rank(a) < Rank(b)
    ensures a in trace
  {
    var i :| 0 <= i < |plan| && plan[i] == a;
    var j :| 0 <= j < |trace| && trace[j] == b;
    assert plan[j] == b;
    assert trace[i] == a;
  }

  /** In any prefix of an ordered plan of wanted steps, a start comes only
      after a stop and a mount, and only when the container was running. */
  lemma PrefixRestart(plan: seq<Effect>, trace: seq<Effect>, running: bool, preinstalled: bool, rootfsIsDir: bool)
    requires Ordered(plan) && trace <= plan
    requires forall e :: e in plan <==> Wanted(e, running, preinstalled, rootfsIsDir)
    ensures Start in trace ==> running && Stop in trace && Mount in trace
  {
    if Start in trace {
      assert Start in plan by {
        var j :| 0 <= j < |trace| && trace[j] == Start;
        assert plan[j] == Start;
      }
      assert Wanted(Start, running, preinstalled, rootfsIsDir);
      assert Stop in plan && Mount in plan by {
        assert Wanted(Stop, running, preinstalled, rootfsIsDir);
        assert Wanted(Mount, running, preinstalled, rootfsIsDir);
      }
      EarlierStepTaken(plan, trace, Stop, Start);
      EarlierStepTaken(plan, trace, Mount, Start);
    }
  }

  /** The container is restarted only after it was stopped and its root
      filesystem remounted, and only if it was running before. */
  lemma RestartOnlyIfRunning(s: HostState, force: bool, req: Request, ch: Channels, host: Host,
                             d: Defaults, failures: map<Effect, string>)
    requires VndkReadable(host.props)
    ensures var run := Init(s, force, req, ch, host, d, failures);
            Start in run.trace ==> PriorStatus(s) != Stopped && Stop in run.trace && Mount in run.trace
  {
    if !(IsInitialized(s) && !force) && SetupConfig(s.config, req, ch, host, d).Ok? {
      var res := SetupConfig(s.config, req, ch, host, d).value;
      var running, preinstalled := PriorStatus(s) != Stopped, Preinstalled(res.imagesPath, d);
      PlanSteps(running, preinstalled, s.rootfsIsDir);
      PlanOrdered(running, preinstalled, s.rootfsIsDir);
      AttemptFollowsPlan(s, res, d, failures);
      PrefixRestart(PlanFor(s, res, d), Attempt(s, res, d, failures).trace, running, preinstalled, s.rootfsIsDir);
    }
  }

  /** The successfully completed steps of a run (a failing step did not complete). */
  function Completed(run: InitRun): seq<Effect>
  {
    if run.outcome.Failed? && |run.trace| > 0 then run.trace[..|run.trace| - 1] else run.trace
  }

  /** The host facts after a run: the configuration file exists once saved,
      and the mount point once created. */
  function After(s: HostState, run: InitRun): HostState
  {
    s.(configFileExists := s.configFileExists || run.saved.Some?,
       rootfsIsDir := s.rootfsIsDir || MkRootfs in Completed(run),
       config := if run.saved.Some? then run.saved.value else s.config)
  }

  /** A completed attempt leaves a configuration file and a root filesystem
      directory behind. */
  lemma AttemptLeavesInitialized(s: HostState, res: Resolved, d: Defaults, failures: map<Effect, string>)
    requires Attempt(s, res, d, failures).outcome == Done
    ensures IsInitialized(After(s, Attempt(s, res, d, failures)))
  {
    AttemptSteps(s, res, d, failures);
    var run := Attempt(s, res, d, failures);
    assert Completed(run) == run.trace;
    if !s.rootfsIsDir {
      assert Wanted(MkRootfs, PriorStatus(s) != Stopped, Preinstalled(res.imagesPath, d), s.rootfsIsDir);
    }
  }

  /** Idempotence: a completed run leaves the runtime initialized, so a
      second, unforced `init` performs no step at all, not even `done`. */
  lemma SecondInitIsNoop(s: HostState, force: bool, req: Request, ch: Channels, host: Host,
                         d: Defaults, failures: map<Effect, string>)
    requires VndkReadable(host.props)
    requires Init(s, force, req, ch, host, d, failures).outcome == Done
    ensures var run := Init(s, force, req, ch, host, d, failures);
            && IsInitialized(After(s, run))
            && Init(After(s, run), false, req, ch, host, d, failures) == InitRun([], AlreadyInitialized, None)
  {
    var res := SetupConfig(s.config, req, ch, host, d).value;
    AttemptLeavesInitialized(s, res, d, failures);
  }
}

=== FILE: ota.dfy ===
/** OTA resolution (`setup_config`): pick the images directory, fill unset
    selectors from the channel defaults, find the system and vendor OTA
    descriptors, and write the resolved values into the `waydroid` section of
    the configuration. The HTTP lookup and the host facts are oracles. */
module Ota {
  import opened Common
  import opened Text
  import opened Vendor

  /** The `waydroid` section of the persisted configuration. */
  type Config = map<string, string>

  const ArchKey := "arch"
  const ImagesPathKey := "images_path"
  const SystemOtaKey := "system_ota"
  const VendorOtaKey := "vendor_ota"
  const SystemDatetimeKey := "system_datetime"
  const VendorDatetimeKey := "vendor_datetime"
  const VendorTypeKey := "vendor_type"
  const BinderKey := "binder"
  const VndbinderKey := "vndbinder"
  const HwbinderKey := "hwbinder"

  /** Keys every successful resolution writes. */
  const AlwaysWritten: set<string> :=
    {ArchKey, ImagesPathKey, SystemOtaKey, VendorOtaKey, VendorTypeKey, BinderKey, VndbinderKey, HwbinderKey}

  /** The HTTP status meaning "this descriptor exists". */
  const StatusOk: nat := 200
  /** The OTA value recorded when a preinstalled image set stands in for a descriptor. */
  const NoOta := "None"

  /** The caller's selectors; the empty string means "not given". */
  datatype Request = Request(
    imagesPath: string,
    systemChannel: string,
    vendorChannel: string,
    romType: string,
    systemType: string)

  /** The channel defaults that fill selectors the caller left unset. */
  datatype Channels = Channels(
    systemChannel: string,
    vendorChannel: string,
    romType: string,
    systemType: string)

  /** Binder device node names chosen by the driver setup. */
  datatype Binder = Binder(binder: string, vndbinder: string, hwbinder: string)

  /** Everything the resolution learns from the host and the network. */
  datatype Host = Host(
    arch: string,                    // host architecture
    props: map<string, string>,      // host properties
    completeImageDirs: set<string>,  // directories holding both system.img and vendor.img
    retrieve: string -> nat,         // HTTP status of a descriptor URL
    binder: Binder)

  /** Installation defaults of the configuration module. */
  datatype Defaults = Defaults(
    preinstalledPaths: seq<string>,
    imagesPath: string,
    systemDatetime: string,
    vendorDatetime: string)

  /** The selectors after defaults are applied. */
  datatype Selection = Selection(
    imagesPath: string,
    systemChannel: string,
    vendorChannel: string,
    romType: string,
    systemType: string)

  /** What a successful resolution produced, and the configuration it saves. */
  datatype Resolved = Resolved(
    imagesPath: string,
    systemOta: string,
    vendorOta: string,
    vendorType: string,
    config: Config)

  /** Python's `if not x: x = fallback` on a string. */
  function OrElse(given: string, fallback: string): string
  {
    if given == "" then fallback else given
  }

  predicate Preinstalled(path: string, d: Defaults)
  {
    path in d.preinstalledPaths
  }

  /** The images directory: the caller's, else the first complete preinstalled
      directory in order, else the configured default. */
  function ChooseImagesPath(given: string, d: Defaults, complete: set<string>): (path: string)
    ensures given != "" ==> path == given
    ensures given == "" && (forall i :: 0 <= i < |d.preinstalledPaths| ==> d.preinstalledPaths[i] !in complete) ==>
                  path == d.imagesPath
    ensures given == "" && (exists i :: 0 <= i < |d.preinstalledPaths| && d.preinstalledPaths[i] in complete) ==>
                  exists i :: 0 <= i < |d.preinstalledPaths| && path == d.preinstalledPaths[i] && path in complete
                    && forall j :: 0 <= j < i ==> d.preinstalledPaths[j] !in complete
  {
    if given != "" then given
    else
      match FirstWhere(d.preinstalledPaths, p => p in complete)
      case Some(i) => d.preinstalledPaths[i]
      case None => d.imagesPath
  }

  function Select(req: Request, ch: Channels, host: Host, d: Defaults): Selection
  {
    Selection(
      ChooseImagesPath(req.imagesPath, d, host.completeImageDirs),
      OrElse(req.systemChannel, ch.systemChannel),
      OrElse(req.vendorChannel, ch.vendorChannel),
      OrElse(req.romType, ch.romType),
      OrElse(req.systemType, ch.systemType))
  }

  /** `<channel>/<rom type>/waydroid_<arch>/<system type>.json` */
  function SystemOtaUrl(channel: string, romType: string, arch: string, systemType: string): string
  {
    channel + "/" + romType + "/waydroid_" + arch + "/" + systemType + ".json"
  }

  /** `<channel>/waydroid_<arch>/<name with spaces as underscores>.json` */
  function VendorOtaUrl(channel: string, arch: string, name: string): string
  {
    channel + "/waydroid_" + arch + "/" + ReplaceChar(name, ' ', '_') + ".json"
  }

  /** Vendor names tried in order: the device codename, then the classification. */
  function VendorCandidates(props: map<string, string>): (names: seq<string>)
    requires VndkReadable(props)
    ensures |names| == 2
  {
    [HostGet(props, CodenameKey), GetVendorType(props)]
  }

  function SystemUrl(sel: Selection, host: Host): string
  {
    SystemOtaUrl(sel.systemChannel, sel.romType, host.arch, sel.systemType)
  }

  /** The first vendor candidate whose descriptor exists. */
  function VendorHit(sel: Selection, host: Host): (hit: Option<nat>)
    requires VndkReadable(host.props)
    ensures var names := VendorCandidates(host.props);
            && (hit.Some? ==>
                  hit.value < 2
                  && host.retrieve(VendorOtaUrl(sel.vendorChannel, host.arch, names[hit.value])) == StatusOk)
            && (hit == Some(1) ==>
                  host.retrieve(VendorOtaUrl(sel.vendorChannel, host.arch, names[0])) != StatusOk)
            && (hit.None? <==>
                  host.retrieve(VendorOtaUrl(sel.vendorChannel, host.arch, names[0])) != StatusOk
                  && host.retrieve(VendorOtaUrl(sel.vendorChannel, host.arch, names[1])) != StatusOk)
  {
    FirstWhere(VendorCandidates(host.props),
               v => host.retrieve(VendorOtaUrl(sel.vendorChannel, host.arch, v)) == StatusOk)
  }

  /** A vendor counts as found only when the hit names a non-empty vendor
      (`setup_config` tests the chosen name for truthiness, not the lookup). */
  predicate VendorFound(sel: Selection, host: Host)
    requires VndkReadable(host.props)
  {
    var hit := VendorHit(sel, host);
    hit.Some? && VendorCandidates(host.props)[hit.value] != ""
  }

  /** The last vendor descriptor URL looked up: the hit, else the final candidate. */
  function VendorTried(sel: Selection, host: Host): string
    requires VndkReadable(host.props)
  {
    var names := VendorCandidates(host.props);
    var hit := VendorHit(sel, host);
    VendorOtaUrl(sel.vendorChannel, host.arch, names[if hit.Some? then hit.value else 1])
  }

  /** True when the stored value of `key` is not `v` (an absent key differs
      from every value). */
  predicate StoredDiffers(cfg: Config, key: string, v: string)
  {
    !(key in cfg && cfg[key] == v)
  }

  /** The configuration written by a successful resolution: every resolved
      field is recorded, and each last-synced timestamp is reset to its
      default when its OTA URL changed. */
  function UpdateConfig(cfg: Config, arch: string, imagesPath: string, systemOta: string,
                        vendorOta: string, vendorType: string, binder: Binder, d: Defaults): (r: Config)
    ensures r.Keys == cfg.Keys + AlwaysWritten
                      + (if StoredDiffers(cfg, SystemOtaKey, systemOta) then {SystemDatetimeKey} else {})
                      + (if StoredDiffers(cfg, VendorOtaKey, vendorOta) then {VendorDatetimeKey} else {})
  {
    var c1 := cfg[ArchKey := arch][ImagesPathKey := imagesPath];
    var c2 := if StoredDiffers(cfg, SystemOtaKey, systemOta) then c1[SystemDatetimeKey := d.systemDatetime] else c1;
    var c3 := if StoredDiffers(cfg, VendorOtaKey, vendorOta) then c2[VendorDatetimeKey := d.vendorDatetime] else c2;
    c3[VendorTypeKey := vendorType][SystemOtaKey := systemOta][VendorOtaKey := vendorOta]
      [BinderKey := binder.binder][VndbinderKey := binder.vndbinder][HwbinderKey := binder.hwbinder]
  }

  /** The update records every resolved field. */
  lemma UpdateConfigRecords(cfg: Config, arch: string, imagesPath: string, systemOta: string,
                            vendorOta: string, vendorType: string, binder: Binder, d: Defaults)
    ensures var r := UpdateConfig(cfg, arch, imagesPath, systemOta, vendorOta, vendorType, binder, d);
            && r[ArchKey] == arch && r[ImagesPathKey] == imagesPath && r[VendorTypeKey] == vendorType
            && r[SystemOtaKey] == systemOta && r[VendorOtaKey] == vendorOta
            && r[BinderKey] == binder.binder && r[VndbinderKey] == binder.vndbinder
            && r[HwbinderKey] == binder.hwbinder
  {
  }

  /** The update touches no key other than the ones it records and the two
      timestamps. */
  lemma UpdateConfigFrame(cfg: Config, arch: string, imagesPath: string, systemOta: string,
                          vendorOta: string, vendorType: string, binder: Binder, d: Defaults)
    ensures var r := UpdateConfig(cfg, arch, imagesPath, systemOta, vendorOta, vendorType, binder, d);
            forall k :: k in cfg && k !in AlwaysWritten && k != SystemDatetimeKey && k != VendorDatetimeKey ==>
                          k in r && r[k] == cfg[k]
  {
  }

  /** `setup_config`: resolve the OTA descriptors for one initialization
      attempt and produce the configuration to save, or the error raised
      before anything is saved. */
  function SetupConfig(cfg: Config, req: Request, ch: Channels, host: Host, d: Defaults): (r: Result<Resolved>)
    requires VndkReadable(host.props)
  {
    var sel := Select(req, ch, host, d);
    var sysUrl := SystemUrl(sel, host);
    var sysStatus := host.retrieve(sysUrl);
    var pre := Preinstalled(sel.imagesPath, d);
    if sysStatus != StatusOk && !pre then
      Err("Failed to get system OTA channel: " + sysUrl + ", error: " + NatToString(sysStatus))
    else
      var systemOta := if sysStatus == StatusOk then sysUrl else NoOta;
      var found := VendorFound(sel, host);
      if !found && !pre then
        Err("Failed to get vendor OTA channel: " + VendorTried(sel, host))
      else
        var vendorOta := if found then VendorTried(sel, host) else NoOta;
        var vendorType := if found then VendorCandidates(host.props)[VendorHit(sel, host).value]
                          else GetVendorType(host.props);
        Ok(Resolved(sel.imagesPath, systemOta, vendorOta, vendorType,
                    UpdateConfig(cfg, host.arch, sel.imagesPath, systemOta, vendorOta, vendorType, host.binder, d)))
  }

  /** Resolution raises exactly when no preinstalled image set is in use and
      the system descriptor is missing or no vendor is found; the system
      lookup is reported first, and the vendor error names the URL the loop
      stopped at: the codename's when it answered but is empty, else the
      classification's. */
  lemma ResolutionFailsIff(cfg: Config, req: Request, ch: Channels, host: Host, d: Defaults)
    requires VndkReadable(host.props)
    ensures var sel := Select(req, ch, host, d);
            SetupConfig(cfg, req, ch, host, d).Err? <==>
                  !Preinstalled(sel.imagesPath, d)
                   && (host.retrieve(SystemUrl(sel, host)) != StatusOk || !VendorFound(sel, host))
    ensures var sel := Select(req, ch, host, d);
            !Preinstalled(sel.imagesPath, d) && host.retrieve(SystemUrl(sel, host)) != StatusOk ==>
                  SetupConfig(cfg, req, ch, host, d)
                  == Err("Failed to get system OTA channel: " + SystemUrl(sel, host) + ", error: "
                         + NatToString(host.retrieve(SystemUrl(sel, host))))
    ensures var sel := Select(req, ch, host, d);
            !Preinstalled(sel.imagesPath, d) && host.retrieve(SystemUrl(sel, host)) == StatusOk
            && !VendorFound(sel, host) ==>
                  SetupConfig(cfg, req, ch, host, d)
                  == Err("Failed to get vendor OTA channel: "
                         + VendorOtaUrl(sel.vendorChannel, host.arch,
                                        if VendorHit(sel, host).Some? then HostGet(host.props, CodenameKey)
                                        else GetVendorType(host.props)))
  {
  }

  /** A successful resolution records the system descriptor URL when it
      exists and "None" otherwise (only possible with preinstalled images). */
  lemma ResolvedSystemOta(cfg: Config, req: Request, ch: Channels, host: Host, d: Defaults)
    requires VndkReadable(host.props)
    requires SetupConfig(cfg, req, ch, host, d).Ok?
    ensures var sel := Select(req, ch, host, d);
            var res := SetupConfig(cfg, req, ch, host, d).value;
            && res.imagesPath == sel.imagesPath
            && (host.retrieve(SystemUrl(sel, host)) == StatusOk ==> res.systemOta == SystemUrl(sel, host))
            && (host.retrieve(SystemUrl(sel, host)) != StatusOk ==>
                      res.systemOta == NoOta && Preinstalled(sel.imagesPath, d))
  {
  }

  /** Vendor selection: candidates are tried in order (codename, then the
      classification); the recorded vendor type is the original, unreplaced
      name of the first candidate whose descriptor exists, and the recorded
      URL is that candidate's descriptor. */
  lemma VendorSelection(cfg: Config, req: Request, ch: Channels, host: Host, d: Defaults)
    requires VndkReadable(host.props)
    requires SetupConfig(cfg, req, ch, host, d).Ok?
    ensures var sel := Select(req, ch, host, d);
            var res := SetupConfig(cfg, req, ch, host, d).value;
            var codename := HostGet(host.props, CodenameKey);
            var codenameUrl := VendorOtaUrl(sel.vendorChannel, host.arch, codename);
            var classUrl := VendorOtaUrl(sel.vendorChannel, host.arch, GetVendorType(host.props));
            && (codename != "" && host.retrieve(codenameUrl) == StatusOk ==>
                      res.vendorType == codename && res.vendorOta == codenameUrl)
            && (host.retrieve(codenameUrl) != StatusOk && host.retrieve(classUrl) == StatusOk ==>
                      res.vendorType == GetVendorType(host.props) && res.vendorOta == classUrl)
            && (res.vendorOta != NoOta ==> host.retrieve(res.vendorOta) == StatusOk)
  {
    var sel := Select(req, ch, host, d);
    var hit := VendorHit(sel, host);
    if hit.Some? && VendorCandidates(host.props)[hit.value] != "" {
      assert host.retrieve(VendorTried(sel, host)) == StatusOk;
    }
    if hit.Some? && hit.value == 0 {
      assert VendorCandidates(host.props)[0] == HostGet(host.props, CodenameKey);
    }
    if hit.Some? && hit.value == 1 {
      assert VendorCandidates(host.props)[1] == GetVendorType(host.props);
    }
  }

  /** With a preinstalled image set and no vendor descriptor, the vendor OTA
      is "None" and the vendor type falls back to the classification. */
  lemma PreinstalledVendorFallback(cfg: Config, req: Request, ch: Channels, host: Host, d: Defaults)
    requires VndkReadable(host.props)
    ensures var sel := Select(req, ch, host, d);
            Preinstalled(sel.imagesPath, d) && !VendorFound(sel, host) ==>
                  SetupConfig(cfg, req, ch, host, d).Ok?
                  && SetupConfig(cfg, req, ch, host, d).value.vendorOta == NoOta
                  && SetupConfig(cfg, req, ch, host, d).value.vendorType == GetVendorType(host.props)
  {
  }

  /** The re-sync rule on the configuration update itself: a timestamp is
      reset exactly when its OTA URL differs from the stored one, and kept
      (present or absent) otherwise. */
  lemma UpdateConfigDatetimes(cfg: Config, arch: string, imagesPath: string, systemOta: string,
                              vendorOta: string, vendorType: string, binder: Binder, d: Defaults)
    ensures var r := UpdateConfig(cfg, arch, imagesPath, systemOta, vendorOta, vendorType, binder, d);
            && (StoredDiffers(cfg, SystemOtaKey, systemOta) ==>
                      SystemDatetimeKey in r && r[SystemDatetimeKey] == d.systemDatetime)
            && (!StoredDiffers(cfg, SystemOtaKey, systemOta) ==>
                      (SystemDatetimeKey in r <==> SystemDatetimeKey in cfg)
                      && (SystemDatetimeKey in cfg ==> r[SystemDatetimeKey] == cfg[SystemDatetimeKey]))
            && (StoredDiffers(cfg, VendorOtaKey, vendorOta) ==>
                      VendorDatetimeKey in r && r[VendorDatetimeKey] == d.vendorDatetime)
            && (!StoredDiffers(cfg, VendorOtaKey, vendorOta) ==>
                      (VendorDatetimeKey in r <==> VendorDatetimeKey in cfg)
                      && (VendorDatetimeKey in cfg ==> r[VendorDatetimeKey] == cfg[VendorDatetimeKey]))
  {
    assert SystemDatetimeKey !in AlwaysWritten && VendorDatetimeKey !in AlwaysWritten;
    assert SystemDatetimeKey != VendorDatetimeKey;
  }

  /** Re-sync bookkeeping: after a successful resolution each last-synced
      timestamp is reset to its default exactly when the OTA URL differs
      from the stored one, and is otherwise left as it was. */
  lemma DatetimeResetIffChanged(cfg: Config, req: Request, ch: Channels, host: Host, d: Defaults)
    requires VndkReadable(host.props)
    requires SetupConfig(cfg, req, ch, host, d).Ok?
    ensures var res := SetupConfig(cfg, req, ch, host, d).value;
            && (StoredDiffers(cfg, SystemOtaKey, res.systemOta) ==>
                      res.config[SystemDatetimeKey] == d.systemDatetime)
            && (!StoredDiffers(cfg, SystemOtaKey, res.systemOta) ==>
                      (SystemDatetimeKey in res.config <==> SystemDatetimeKey in cfg)
                      && (SystemDatetimeKey in cfg ==> res.config[SystemDatetimeKey] == cfg[SystemDatetimeKey]))
            && (StoredDiffers(cfg, VendorOtaKey, res.vendorOta) ==>
                      res.config[VendorDatetimeKey] == d.vendorDatetime)
            && (!StoredDiffers(cfg, VendorOtaKey, res.vendorOta) ==>
                      (VendorDatetimeKey in res.config <==> VendorDatetimeKey in cfg)
                      && (VendorDatetimeKey in cfg ==> res.config[VendorDatetimeKey] == cfg[VendorDatetimeKey]))
  {
    var sel := Select(req, ch, host, d);
    var res := SetupConfig(cfg, req, ch, host, d).value;
    assert res.config
        == UpdateConfig(cfg, host.arch, sel.imagesPath, res.systemOta, res.vendorOta, res.vendorType, host.binder, d);
    UpdateConfigDatetimes(cfg, host.arch, sel.imagesPath, res.systemOta, res.vendorOta, res.vendorType, host.binder, d);
  }

  /** Spaces and underscores in a vendor name map to the same descriptor:
      turning any one space into an underscore, or all of them at once,
      leaves the descriptor URL unchanged. */
  lemma SpacesBecomeUnderscores(channel: string, arch: string, name: string, i: nat)
    requires i < |name| && name[i] == ' '
    ensures VendorOtaUrl(channel, arch, name) == VendorOtaUrl(channel, arch, name[i := '_'])
    ensures VendorOtaUrl(channel, arch, ReplaceChar(name, ' ', '_')) == VendorOtaUrl(channel, arch, name)
  {
    assert ReplaceChar(name, ' ', '_') == ReplaceChar(name[i := '_'], ' ', '_');
    var once := ReplaceChar(name, ' ', '_');
    assert ReplaceChar(once, ' ', '_') == once;
  }
}

=== FILE: stream.dfy ===
/** The client side of a remote initialization (`run_init`): it announces the
    wait, sends the command record, and then draws the service's output as
    it arrives, one character at a time, cut into chunks at carriage returns
    and line feeds. */
module Stream {
  import opened Text

  const CR: char := '\r'
  const LF: char := '\n'

  /** The read loop from a partial `line` on: a carriage return draws the
      partial line and starts a new one holding just the carriage return; a
      line feed completes the line and draws it; any other character is
      appended; at end of stream the partial line is drawn. */
  function Drain(input: string, line: string): (chunks: seq<string>)
    ensures |chunks| >= 1
    decreases |input|
  {
    if |input| == 0 then [line]
    else if input[0] == CR then [line] + Drain(input[1..], [CR])
    else if input[0] == LF then [line + [LF]] + Drain(input[1..], "")
    else Drain(input[1..], line + [input[0]])
  }

  /** The chunks drawn for a whole stream. */
  function Chunks(input: string): (chunks: seq<string>)
    ensures |chunks| >= 1
  {
    Drain(input, "")
  }

  /** A partial line: no line feed, and a carriage return only in front. */
  predicate LineShape(line: string)
  {
    && (forall i :: 0 <= i < |line| ==> line[i] != LF)
    && (forall i :: 0 < i < |line| ==> line[i] != CR)
  }

  /** A drawn chunk: a carriage return only in front, a line feed only at the end. */
  predicate ChunkShape(chunk: string)
  {
    && (forall i :: 0 < i < |chunk| ==> chunk[i] != CR)
    && (forall i :: 0 <= i < |chunk| - 1 ==> chunk[i] != LF)
  }

  predicate AllChunkShape(chunks: seq<string>)
  {
    forall k :: 0 <= k < |chunks| ==> ChunkShape(chunks[k])
  }

  /** Nothing is lost or reordered: the chunks drawn from a partial line on
      spell out the partial line followed by the rest of the stream. */
  lemma {:induction false} DrainConcat(input: string, line: string)
    ensures Concat(Drain(input, line)) == line + input
    decreases |input|
  {
    if |input| == 0 {
      assert Concat([line]) == line + Concat([]);
    } else {
      var c := input[0];
      var rest := input[1..];
      assert input == [c] + rest;
      if c == CR {
        DrainConcat(rest, [CR]);
        var chunks := [line] + Drain(rest, [CR]);
        assert chunks[1..] == Drain(rest, [CR]);
      } else if c == LF {
        DrainConcat(rest, "");
        var chunks := [line + [LF]] + Drain(rest, "");
        assert chunks[1..] == Drain(rest, "");
        assert line + [LF] + ("" + rest) == line + input;
      } else {
        DrainConcat(rest, line + [c]);
        assert line + [c] + rest == line + input;
      }
    }
  }

  /** The characters drawn are exactly the characters read. */
  lemma ChunksConcat(input: string)
    ensures Concat(Chunks(input)) == input
  {
    DrainConcat(input, "");
  }

  /** Every chunk drawn from a well-shaped partial line on is well shaped. */
  lemma {:induction false} DrainShape(input: string, line: string)
    requires LineShape(line)
    ensures AllChunkShape(Drain(input, line))
    decreases |input|
  {
    if |input| > 0 {
      var c := input[0];
      var rest := input[1..];
      if c == CR {
        DrainShape(rest, [CR]);
        ConsShape(line, Drain(rest, [CR]));
      } else if c == LF {
        DrainShape(rest, "");
        var done := line + [LF];
        assert ChunkShape(done) by {
          forall i | 0 < i < |done| ensures done[i] != CR {
            if i < |line| {
              assert done[i] == line[i];
            }
          }
        }
        ConsShape(done, Drain(rest, ""));
      } else {
        var longer := line + [c];
        assert LineShape(longer) by {
          forall i | 0 <= i < |longer| ensures longer[i] != LF {
            if i < |line| {
              assert longer[i] == line[i];
            }
          }
        }
        DrainShape(rest, longer);
      }
    }
  }

  lemma ConsShape(chunk: string, chunks: seq<string>)
    requires ChunkShape(chunk) && AllChunkShape(chunks)
    ensures AllChunkShape([chunk] + chunks)
  {
    var all := [chunk] + chunks;
    forall k | 0 < k < |all| ensures ChunkShape(all[k]) {
      assert all[k] == chunks[k - 1];
    }
  }

  /** Within each chunk drawn, a carriage return appears only in front and a
      line feed only at the end. */
  lemma ChunksShape(input: string)
    ensures AllChunkShape(Chunks(input))
  {
    DrainShape(input, "");
  }

  /** The partial line pending after reading `s`, read backwards from its
      end: empty after a line feed, a lone carriage return after one, and
      otherwise the pending line before the last character, extended by it. */
  function Pending(s: string): string
    decreases |s|
  {
    if |s| == 0 then ""
    else if s[|s| - 1] == LF then ""
    else if s[|s| - 1] == CR then [CR]
    else Pending(s[..|s| - 1]) + [s[|s| - 1]]
  }

  /** What precedes a carriage return does not matter to the pending line. */
  lemma {:induction false} PendingAfterCR(x: string, y: string)
    ensures Pending(x + [CR] + y) == Pending([CR] + y)
    decreases |y|
  {
    var s := x + [CR] + y;
    var t := [CR] + y;
    if |y| == 0 {
      assert s[|s| - 1] == CR && t[|t| - 1] == CR;
    } else {
      var y' := y[..|y| - 1];
      assert s[..|s| - 1] == x + [CR] + y';
      assert t[..|t| - 1] == [CR] + y';
      PendingAfterCR(x, y');
    }
  }

  /** What precedes a line feed does not matter to the pending line. */
  lemma {:induction false} PendingAfterLF(x: string, y: string)
    ensures Pending(x + [LF] + y) == Pending(y)
    decreases |y|
  {
    var s := x + [LF] + y;
    if |y| == 0 {
      assert s[|s| - 1] == LF;
    } else {
      var y' := y[..|y| - 1];
      assert s[..|s| - 1] == x + [LF] + y';
      assert y == y' + [y[|y| - 1]];
      PendingAfterLF(x, y');
    }
  }

  /** The last of some chunks. */
  function Last(chunks: seq<string>): string
    requires |chunks| >= 1
  {
    chunks[|chunks| - 1]
  }

  /** One step of `DrainLast` for a carriage return. */
  lemma LastAfterCR(line: string, rest: string)
    requires Last(Drain(rest, [CR])) == Pending([CR] + rest)
    ensures Last(Drain([CR] + rest, line)) == Pending(line + ([CR] + rest))
  {
    var input := [CR] + rest;
    assert input[1..] == rest;
    assert Drain(input, line) == [line] + Drain(rest, [CR]);
    PendingAfterCR(line, rest);
    assert line + input == line + [CR] + rest;
  }

  /** One step of `DrainLast` for a line feed. */
  lemma LastAfterLF(line: string, rest: string)
    requires Last(Drain(rest, "")) == Pending(rest)
    ensures Last(Drain([LF] + rest, line)) == Pending(line + ([LF] + rest))
  {
    var input := [LF] + rest;
    assert input[1..] == rest;
    assert Drain(input, line) == [line + [LF]] + Drain(rest, "");
    PendingAfterLF(line, rest);
    assert line + input == line + [LF] + rest;
  }

  /** One step of `DrainLast` for any other character. */
  lemma LastAfterOther(line: string, c: char, rest: string)
    requires c != CR && c != LF
    requires Last(Drain(rest, line + [c])) == Pending(line + [c] + rest)
    ensures Last(Drain([c] + rest, line)) == Pending(line + ([c] + rest))
  {
    var input := [c] + rest;
    assert input[1..] == rest;
    assert Drain(input, line) == Drain(rest, line + [c]);
    assert line + input == line + [c] + rest;
  }

  /** The last chunk drawn from a pending line on is the line pending after
      the whole stream. */
  lemma {:induction false} DrainLast(input: string, line: string)
    requires Pending(line) == line
    ensures Last(Drain(input, line)) == Pending(line + input)
    decreases |input|
  {
    if |input| == 0 {
      assert line + input == line;
    } else {
      var c := input[0];
      var rest := input[1..];
      assert input == [c] + rest;
      if c == CR {
        assert Pending([CR]) == [CR];
        DrainLast(rest, [CR]);
        LastAfterCR(line, rest);
      } else if c == LF {
        DrainLast(rest, "");
        assert "" + rest == rest;
        LastAfterLF(line, rest);
      } else {
        var longer := line + [c];
        assert longer[..|longer| - 1] == line;
        DrainLast(rest, longer);
        LastAfterOther(line, c, rest);
      }
    }
  }

  /** At end of stream the pending partial line is drawn: the last chunk is
      what follows the last line feed, or the last carriage return together
      with what follows it. */
  lemma ChunksLast(input: string)
    ensures Last(Chunks(input)) == Pending(input)
  {
    DrainLast(input, "");
    assert "" + input == input;
  }

  /** The read loop as written: read one character at a time until the
      stream ends. */
  method ReadLoop(input: string) returns (chunks: seq<string>)
    ensures chunks == Chunks(input)
    ensures Concat(chunks) == input
    ensures AllChunkShape(chunks)
    ensures |chunks| >= 1 && Last(chunks) == Pending(input)
  {
    chunks := [];
    var line := "";
    var i := 0;
    while i < |input|
      invariant 0 <= i <= |input|
      invariant chunks + Drain(input[i..], line) == Chunks(input)
      decreases |input| - i
    {
      var c := input[i];
      assert input[i..][1..] == input[i + 1..];
      if c == CR {
        chunks := chunks + [line];
        line := [c];
      } else {
        line := line + [c];
        if c == LF {
          chunks := chunks + [line];
          line := "";
        }
      }
      i := i + 1;
    }
    chunks := chunks + [line];
    assert input[i..] == [];
    ChunksConcat(input);
    ChunksShape(input);
    ChunksLast(input);
  }

  const WaitingMsg := "Waiting for waydroid container service...\n"
  const NotListeningMsg := "The waydroid container service is not listening\n"
  const DoneLine := "Done\n"

  /** Everything `run_init` draws: the waiting notice; then, if the service
      did not take the record, a notice saying so and nothing else;
      otherwise the service's output chunks and, when the runtime is
      initialized afterwards, a closing line. */
  function ClientDraws(listening: bool, output: string, initializedAfter: bool): (draws: seq<string>)
    ensures |draws| >= 2 && draws[0] == WaitingMsg
    ensures !listening ==> draws == [WaitingMsg, NotListeningMsg]
  {
    [WaitingMsg] +
    if !listening then [NotListeningMsg]
    else Chunks(output) + (if initializedAfter then [DoneLine] else [])
  }

  /** The text the client shows: the waiting notice, the service's output
      verbatim, and the closing line exactly when initialized afterwards. */
  lemma ClientText(output: string, initializedAfter: bool)
    ensures Concat(ClientDraws(true, output, initializedAfter)) ==
            WaitingMsg + output + (if initializedAfter then DoneLine else "")
  {
    var chunks := Chunks(output);
    ChunksConcat(output);
    var tail := if initializedAfter then [DoneLine] else [];
    var draws := [WaitingMsg] + (chunks + tail);
    assert draws[1..] == chunks + tail;
    if initializedAfter {
      ConcatAppend(chunks, DoneLine);
    } else {
      assert chunks + tail == chunks;
    }
  }
}

=== FILE: text.dfy ===
/** The string primitives the initializer relies on, with Python's meaning:
    `str.split` on one separator, `sep.join`, `str(n)`, `int(s)` on digits,
    `str.replace` of one character and `str.startswith`. */
module Text {

  /** `sep.join(parts)`. */
  function Join(parts: seq<string>, sep: char): string
  {
    if |parts| == 0 then ""
    else if |parts| == 1 then parts[0]
    else parts[0] + [sep] + Join(parts[1..], sep)
  }

  /** `s.split(sep)`: never empty, no piece contains the separator, and the
      pieces joined back with the separator give `s` again. */
  function Split(s: string, sep: char): (parts: seq<string>)
    ensures |parts| >= 1
    ensures forall i :: 0 <= i < |parts| ==> sep !in parts[i]
    ensures Join(parts, sep) == s
    decreases |s|
  {
    if |s| == 0 then [""]
    else
      var rest := Split(s[1..], sep);
      if s[0] == sep then
        assert [sep] + Join(rest, sep) == s;
        [""] + rest
      else
        var parts := [[s[0]] + rest[0]] + rest[1..];
        assert parts[1..] == rest[1..];
        parts
  }

  /** Splitting a separator-free string yields that string alone. */
  lemma {:induction false} SplitSepFree(a: string, sep: char)
    requires sep !in a
    ensures Split(a, sep) == [a]
    decreases |a|
  {
    if |a| > 0 {
      SplitSepFree(a[1..], sep);
    }
  }

  /** A separator-free head, then the separator: the head is the first piece. */
  lemma {:induction false} SplitAfterHead(a: string, sep: char, t: string)
    requires sep !in a
    ensures Split(a + [sep] + t, sep) == [a] + Split(t, sep)
    decreases |a|
  {
    var s := a + [sep] + t;
    if |a| == 0 {
      assert s[1..] == t;
    } else {
      assert s[1..] == a[1..] + [sep] + t;
      SplitAfterHead(a[1..], sep, t);
      assert [a[0]] + a[1..] == a;
    }
  }

  /** Round trip: splitting the join of separator-free pieces gives the pieces back. */
  lemma {:induction false} SplitJoin(parts: seq<string>, sep: char)
    requires |parts| >= 1
    requires forall i :: 0 <= i < |parts| ==> sep !in parts[i]
    ensures Split(Join(parts, sep), sep) == parts
    decreases |parts|
  {
    if |parts| == 1 {
      SplitSepFree(parts[0], sep);
    } else {
      SplitAfterHead(parts[0], sep, Join(parts[1..], sep));
      SplitJoin(parts[1..], sep);
      assert [parts[0]] + parts[1..] == parts;
    }
  }

  /** A join begins with its first piece. */
  lemma JoinHead(parts: seq<string>, sep: char)
    requires |parts| >= 1
    ensures |Join(parts, sep)| >= |parts[0]| && Join(parts, sep)[..|parts[0]|] == parts[0]
  {
    if |parts| > 1 {
      var j := Join(parts, sep);
      assert j == parts[0] + ([sep] + Join(parts[1..], sep));
    }
  }

  predicate IsDigit(c: char)
  {
    '0' <= c <= '9'
  }

  predicate AllDigits(s: string)
  {
    forall i :: 0 <= i < |s| ==> IsDigit(s[i])
  }

  function DigitValue(c: char): nat
    requires IsDigit(c)
  {
    c as int - '0' as int
  }

  function DigitChar(d: nat): (c: char)
    requires d < 10
    ensures IsDigit(c) && DigitValue(c) == d
  {
    ('0' as int + d) as char
  }

  /** `int(s)` for a string of decimal digits (the empty string reads as 0 here;
      callers decide what an empty string means). */
  function ParseDecimal(s: string): nat
    requires AllDigits(s)
    decreases |s|
  {
    if |s| == 0 then 0
    else 10 * ParseDecimal(s[..|s| - 1]) + DigitValue(s[|s| - 1])
  }

  /** `str(n)`: a non-empty digit string without a leading zero that reads
      back as `n`. */
  function NatToString(n: nat): (s: string)
    ensures |s| >= 1 && AllDigits(s)
    ensures s[0] == '0' ==> n == 0
    ensures ParseDecimal(s) == n
    decreases n
  {
    if n < 10 then [DigitChar(n)]
    else
      var high := NatToString(n / 10);
      var s := high + [DigitChar(n % 10)];
      assert s[..|s| - 1] == high;
      s
  }

  /** `s.replace(from, to)` for one-character arguments. */
  function ReplaceChar(s: string, from: char, to: char): (r: string)
    ensures |r| == |s|
    ensures from != to ==> from !in r
    ensures forall i :: 0 <= i < |s| && s[i] != from ==> r[i] == s[i]
    ensures forall i :: 0 <= i < |s| && s[i] == from ==> r[i] == to
  {
    seq(|s|, i requires 0 <= i < |s| => if s[i] == from then to else s[i])
  }

  /** `s.startswith(prefix)`. */
  predicate StartsWith(s: string, prefix: string)
  {
    |prefix| <= |s| && s[..|prefix|] == prefix
  }

  /** All chunks written one after another. */
  function Concat(chunks: seq<string>): string
  {
    if |chunks| == 0 then "" else chunks[0] + Concat(chunks[1..])
  }

  lemma {:induction false} ConcatAppend(chunks: seq<string>, c: string)
    ensures Concat(chunks + [c]) == Concat(chunks) + c
    decreases |chunks|
  {
    if |chunks| == 0 {
      assert chunks + [c] == [c];
    } else {
      assert (chunks + [c])[1..] == chunks[1..] + [c];
      ConcatAppend(chunks[1..], c);
    }
  }
}

=== FILE: vendor.dfy ===
/** Vendor-type classification: the label used to pick a vendor image when the
    device codename has no image of its own, derived from the host's
    `ro.vndk.version` property. */
module Vendor {
  import opened Common
  import opened Text

  const VndkKey := "ro.vndk.version"
  const CodenameKey := "ro.product.device"
  const Mainline := "MAINLINE"
  const HaliumPrefix := "HALIUM_"
  /** VNDK versions above this are Halium; the label counts from here. */
  const HaliumBase: nat := 19

  /** A host property read: an absent property reads as the empty string. */
  function HostGet(props: map<string, string>, key: string): string
  {
    if key in props then props[key] else ""
  }

  /** The VNDK property is either absent/empty or a plain decimal number. */
  predicate VndkReadable(props: map<string, string>)
  {
    AllDigits(HostGet(props, VndkKey))
  }

  /** The Halium level a vendor label names: `HALIUM_<n>` reads as `n`, any
      other label (MAINLINE included) names none. */
  function HaliumLevel(kind: string): Option<nat>
  {
    if |kind| > |HaliumPrefix| && kind[..|HaliumPrefix|] == HaliumPrefix
       && AllDigits(kind[|HaliumPrefix|..])
    then Some(ParseDecimal(kind[|HaliumPrefix|..]))
    else None
  }

  /** Classification of a VNDK version string: MAINLINE exactly when it is
      empty or at most 19, otherwise a Halium label whose level is the version
      minus 19. */
  function VendorTypeOf(vndk: string): (kind: string)
    requires AllDigits(vndk)
    ensures kind == Mainline <==> vndk == "" || ParseDecimal(vndk) <= HaliumBase
    ensures HaliumLevel(kind).Some? <==> kind != Mainline
    ensures kind != Mainline ==> HaliumLevel(kind) == Some(ParseDecimal(vndk) - HaliumBase)
    ensures kind != Mainline ==> kind == HaliumPrefix + NatToString(ParseDecimal(vndk) - HaliumBase)
  {
    if vndk != "" && ParseDecimal(vndk) > HaliumBase then
      var digits := NatToString(ParseDecimal(vndk) - HaliumBase);
      var kind := HaliumPrefix + digits;
      assert kind[..|HaliumPrefix|] == HaliumPrefix;
      assert kind[|HaliumPrefix|..] == digits;
      assert kind[0] != Mainline[0];
      kind
    else
      assert Mainline[..|HaliumPrefix|] != HaliumPrefix by {
        assert Mainline[0] != HaliumPrefix[0];
      }
      Mainline
  }

  /** `get_vendor_type`: classify the host's VNDK version. */
  function GetVendorType(props: map<string, string>): (kind: string)
    requires VndkReadable(props)
    ensures VndkKey !in props ==> kind == Mainline
    ensures kind != ""
  {
    VendorTypeOf(HostGet(props, VndkKey))
  }

  /** Examples of the rule on concrete properties. */
  lemma VendorTypeExamples()
    ensures VendorTypeOf("") == Mainline
    ensures VendorTypeOf("19") == Mainline
    ensures VendorTypeOf("30") == "HALIUM_11"
  {
    assert ParseDecimal("19") == 19 by { assert "19"[..1] == "1"; }
    assert ParseDecimal("30") == 30 by { assert "30"[..1] == "3"; }
    assert NatToString(11) == "11";
  }
}
